=== FILE: README.md ===
# Pet-adoption API handlers in Dafny

This project models the request handlers of a small REST API for a pet-adoption platform. The API keeps users, pets and adoption records in a document store. Each handler validates its input in a fixed order and then reads or writes one or two documents.

The store is three immutable maps: `users`, `pets` and `adoptions`, keyed by opaque string ids (`Store.Store`). Each handler is a pure function from the store and the request's inputs to one of two things:

- `Failure(Thrown)`: the error it throws. That is an `AppError(name, message, cause, code)` raised through `createError`, or the driver's `CastError` for an id string it cannot cast.
- `Success(Outcome(store', reply))`: the new store and the reply (status, JSON envelope, cookie).

Read-only handlers return only the reply. The adoption router answers its own errors, so it always returns an `Outcome`.

A request field follows JavaScript truthiness (`Js.Truthy`): it counts as missing when it is absent or the empty string.

The modules follow the source files:

| module | source |
|---|---|
| `Errors` | `src/utils/CustomError.js` |
| `PetDto` | `src/dto/Pet.dto.js` |
| `AdoptionsController` | `src/controllers/adoptions.controller.js` |
| `AdoptionRouter` | `src/routes/adoption.router.js`, the variant the application mounts |
| `SessionsController` | `src/controllers/sessions.controller.js` |
| `Email` | the registration e-mail regular expression |
| `UsersController` | `src/controllers/users.controller.js` |
| `PetsController` | `src/controllers/pets.controller.js` |
| `Invariants` | store-wide properties the handlers keep |

Some things the source does not do itself are parameters of the model:

- the driver's rule for which strings cast to ids (`castable`);
- the fresh id the driver gives an inserted document (`newId`, required not to be in use);
- the current date (`today`, `now`);
- the module directory (`dirname`);
- bcrypt hashing (`hash`) and password comparison (`verify`);
- the user projection of `User.dto.js` (`project`). `User.dto.js` is not part of this model;
- JWT signing (`sign`) and verification (`verify`);
- the production flag.

A token is the datatype `Token(claims, expiresInSeconds)`, and the cookie carries `sign(token)`.

## Model

| member | source | states |
|---|---|---|
| Errors.CreateError | src/utils/CustomError.js:2-8 | never returns normally: the result is always a thrown error carrying exactly the given name, message, cause and code; an absent name is `Error`, an absent code 500, an absent message empty |
| Errors.Dictionary | src/utils/CustomError.js:11-48 | the three *_NOT_FOUND kinds are exactly the 404 entries; REGISTER_USER, CREATE_PET, PET_ALREADY_ADOPTED and INVALID_DATA_TYPE are exactly the 400 ones; INVALID_CREDENTIALS is the only 401 and INTERNAL_SERVER the only 500; every message is non-empty |
| Errors.CreateErrorIsError | src/utils/CustomError.js:2-8 | `createError({name, message, code})` throws exactly `Error(name, message, code)`, the value the handlers' contracts name |
| PetDto.GetPetInputFrom | src/dto/Pet.dto.js:2-10 | `adopted` is always false; name, specie and image are copied when truthy and are '' otherwise; birthDate is copied when truthy and is the current date otherwise |
| PetDto.GetPetInputIdempotent | src/dto/Pet.dto.js:3-9 | normalising an already-normalised pet gives it back unchanged |
| AdoptionsController.GetAdoption | src/controllers/adoptions.controller.js:13-37 | a missing id gives ValidationError 400 and an id the driver cannot cast gives its CastError; an absent id gives ADOPTION_NOT_FOUND 404; otherwise the stored record is returned unchanged |
| AdoptionsController.CreateAdoption | src/controllers/adoptions.controller.js:39-91 | the checks run in this order: ids present (400), user exists (USER_NOT_FOUND 404), pet exists (PET_NOT_FOUND 404), pet not adopted (PET_ALREADY_ADOPTED 400). It succeeds exactly when all pass. Then the user's `pets` gains `pid` at the end, the pet becomes adopted with owner `uid`, one adoption `{owner, pet}` is added under the new id, nothing else changes, and the reply carries the new id |
| AdoptionsController.MissingIdsSkipLookups | src/controllers/adoptions.controller.js:43-49 | with an id missing, the answer is the same failure for every store and every driver, so no lookup or write decides it |
| AdoptionsController.UserCheckPrecedesPetCheck | src/controllers/adoptions.controller.js:52-71 | an absent user gives USER_NOT_FOUND whatever the pets collection holds, including when the pet is absent too |
| AdoptionsController.NoSecondAdoption | src/controllers/adoptions.controller.js:74-86 | adopting an unadopted pet succeeds, and adopting the same pet again afterwards, by any existing user, fails with PET_ALREADY_ADOPTED |
| AdoptionRouter.CatchCreate | src/routes/adoption.router.js:130-145 | a thrown value named CastError becomes 400 and anything else 500 |
| AdoptionRouter.GetAdoption | src/routes/adoption.router.js:30-61 | a missing id gives 400 and an absent adoption 404. An uncastable id gives 500, because this `catch` has no CastError case. Status 200 comes exactly when the record exists, and the payload is that record |
| AdoptionRouter.CreateAdoption | src/routes/adoption.router.js:64-146 | the same check order, answered as 400/404/404/400, with cast failures answered as 400. Every non-200 answer leaves the store untouched. On 200 it makes the same three changes as the controller, with the adoption dated `now`, and answers with the new adoption's id |
| AdoptionRouter.GetAdoptionMatchesController | src/routes/adoption.router.js:30-61 | `GET /:aid` and the controller's `getAdoption` succeed on the same requests with the same reply. A controller error's code is the route's status, except that a cast failure is 500 on the route |
| AdoptionRouter.RouterMatchesController | src/routes/adoption.router.js:102-128 | the mounted route and the controller succeed on the same requests. They leave the same store apart from the adoption date, although the two run the three writes in different orders, and they fail with the same status code |
| SessionsController.Register | src/controllers/sessions.controller.js:11-56 | checks run in order: any missing field (400), a malformed e-mail (400), an e-mail already registered (ConflictError 409). It succeeds exactly when all pass. It then adds exactly one user, storing `hash(password)` and never the plaintext, leaves everything else unchanged, and answers 201 with the new id |
| Email.ScanEmail | src/controllers/sessions.controller.js:25-26 | a one-pass scanner accepts exactly the e-mails with no white space, exactly one '@', a non-empty local part and a '.' inside the domain that is neither its first nor its last character |
| Email.EmailPatternIff | src/controllers/sessions.controller.js:25 | the field-by-field rule above accepts exactly the strings matching `^[^\s@]+@[^\s@]+\.[^\s@]+$`, with `\s` as JavaScript defines it |
| SessionsController.Login | src/controllers/sessions.controller.js:58-99 | covers `login` and `unprotectedLogin`. Missing e-mail or password gives 400. After that, every failure is the same INVALID_CREDENTIALS 401 error, and an unknown e-mail always fails. A success means some user with that e-mail accepted the password |
| SessionsController.LoginReply | src/controllers/sessions.controller.js:90-98 | the token expires after 3600 s and the cookie's maxAge is 1000 times that (3600000 ms). The cookie is http-only and secure only in production. `coderCookie` carries the projection and `unprotectedCookie` the full record (lines 159-162) |
| SessionsController.Current | src/controllers/sessions.controller.js:101-125 | covers `current` and `unprotectedCurrent`. A missing cookie and a token that fails verification are both 401, with different messages. It succeeds exactly when the token verifies, and the payload is the decoded claims |
| SessionsController.CurrentAfterLogin | src/controllers/sessions.controller.js:90-124 | when verification undoes signing, presenting the cookie a login set makes the same flow's `current` return exactly the claims that login signed |
| SessionsController.Logout | src/controllers/sessions.controller.js:195-201 | always succeeds and clears only `coderCookie`, never `unprotectedCookie` |
| UsersController.GetUser | src/controllers/users.controller.js:13-37 | a missing id gives 400 and an absent user USER_NOT_FOUND 404. It succeeds exactly when the user exists, with the stored user as payload |
| UsersController.UpdateUser | src/controllers/users.controller.js:39-96 | the first failing check wins, in this order: missing id, empty body, user not found, truthy password, then a truthy new e-mail different from the user's own that another user already has (ConflictError 409). Each failing check gives its own error. Re-submitting one's own e-mail passes. On success only user `uid` is patched with the body, and the reply echoes `uid` |
| UsersController.UpdateUserGuarded | src/controllers/users.controller.js:70-91 | corrected guards, same check order: after the id, body and user checks, a body carrying `password` at all gives the 400 password error, and any e-mail change that would collide gives ConflictError 409. The stored hash never changes |
| UsersController.EmptyPasswordOverwritesHash | src/controllers/users.controller.js:71-78 | as written, `{password: ""}` passes the guard and overwrites the stored hash with "" |
| UsersController.EmptyEmailDuplicates | src/controllers/users.controller.js:80-91 | as written, `{email: ""}` skips the conflict lookup: from a store with unique e-mails it produces two users with the same e-mail |
| UsersController.GuardedUpdateKeepsEmailsUnique | src/controllers/users.controller.js:80-93 | with the corrected guards, an update keeps e-mails unique across users |
| UsersController.GuardsAgree | src/controllers/users.controller.js:70-91 | the as-written guards and the corrected guards give the same result on every request whose body has neither `password: ""` nor `email: ""`, so the two findings are the only places they differ |
| UsersController.UpdateKeepsEmailsUnique | src/controllers/users.controller.js:80-93 | as written, an update whose body has no `email: ""` keeps e-mails unique across users |
| UsersController.DeleteUser | src/controllers/users.controller.js:98-128 | a missing id gives 400 and an absent user 404 with no delete. On success exactly that user is removed and nothing else changes |
| PetsController.CreatePet | src/controllers/pets.controller.js:15-32 | any missing name, specie or birthDate gives 400 and no pet. Otherwise exactly one pet is added: name, specie and birthDate copied, image '', not adopted, no owner. The reply echoes that pet |
| PetsController.CreatePetWithImage | src/controllers/pets.controller.js:91-130 | the field check comes before the file check, and a missing file gives 400. On success the stored image is the uploaded file's public path |
| PetsController.UpdatePet | src/controllers/pets.controller.js:34-61 | a missing id gives 400 and an absent pet PET_NOT_FOUND 404 with no write. On success only that pet changes, patched by the body |
| PetsController.DeletePet | src/controllers/pets.controller.js:63-89 | the same not-found rule applies. On success exactly that pet is removed |
| Invariants.RegisterKeepsEmailsUnique | src/controllers/sessions.controller.js:35-53 | registration keeps e-mails unique across users |
| Invariants.AdoptionKeepsInvariants | src/controllers/adoptions.controller.js:84-87 | the adoption changes keep e-mails unique and keep every pet's owner set exactly when the pet is adopted |
| Invariants.ControllerAdoptionKeepsInvariants | src/controllers/adoptions.controller.js:39-91 | the controller's adoption keeps both store invariants |
| Invariants.RouterAdoptionKeepsInvariants | src/routes/adoption.router.js:64-146 | every answer of the mounted route keeps both store invariants |
| Invariants.CreatePetKeepsOwnerIffAdopted | src/controllers/pets.controller.js:28-31 | creating a pet keeps every pet's owner set exactly when it is adopted |
| Invariants.DeleteUserKeepsInvariants | src/controllers/users.controller.js:110-127 | deleting a user keeps e-mails unique and every pet's owner set exactly when it is adopted |
| Invariants.DeletePetKeepsInvariants | src/controllers/pets.controller.js:76-88 | deleting a pet keeps both store invariants |
| Invariants.CreatePetWithImageKeepsInvariants | src/controllers/pets.controller.js:120-127 | creating a pet with an image keeps both store invariants |
| Invariants.UpdatePetKeepsOwnerIffAdopted | src/controllers/pets.controller.js:58 | an update whose body sets neither `adopted` nor `owner` keeps every pet's owner set exactly when it is adopted |
| Invariants.GetUserAfterRegister | src/controllers/users.controller.js:25-36 | after a registration, `getUser` on the new id returns the stored user: the given names and e-mail, the hashed password, role `user`, no pets |
| Invariants.LoginHidesUnknownEmail | src/controllers/sessions.controller.js:70-88 | an unknown e-mail and a known e-mail with a wrong password produce the identical result, INVALID_CREDENTIALS 401 |
| Invariants.LoginSucceedsIffPasswordMatches | src/controllers/sessions.controller.js:70-98 | when e-mails are unique, login succeeds exactly when that account accepts the password, and the cookie is that account's |

## Findings

| source | as written | input that shows it | evidently intended | confidence | as-written member | corrected member |
|---|---|---|---|---|---|---|
| src/controllers/users.controller.js:71 | only a truthy `password` is refused | body `{password: ""}` for an existing user: accepted, and the stored hash becomes "" | refuse any body that carries `password`; its comment says sensitive fields are not updated here | medium, not executed (a schema validator outside this model could block it) | UsersController.EmptyPasswordOverwritesHash | UsersController.UpdateUserGuarded |
| src/controllers/users.controller.js:80 | the e-mail conflict lookup runs only for a truthy new e-mail | user u1 has e-mail "" and u2 has `leo@x.io`; body `{email: ""}` for u2 is accepted and both have "" | every e-mail change is checked against the other users | medium, not executed (a unique index outside this model could block it) | UsersController.EmptyEmailDuplicates | UsersController.GuardedUpdateKeepsEmailsUnique |

In both cases `UsersController.UpdateUser` follows the code and reads the guards as truthiness. The rule "a body containing a password field is rejected" holds only for the corrected guard.

## Left out

- Listing handlers (`getAllAdoptions`, `getAllUsers`, `getAllPets`, `GET /` of the adoption router): they return a whole collection unchanged, with no validation.
- The check-then-write race between simultaneous adoptions, and a failure between the three writes. Each handler is one atomic step, so the writes cannot fail part-way. The router's `catch` is reachable in the model only through a cast failure.
- The router's `if (!user.pets) user.pets = []`: a stored user always has a `pets` array (the schema's array default), so that branch never runs in the model.
- The HTTP status of errors thrown by the controllers: the error-handling middleware is not modelled, so a controller error stays a `Thrown` value with its name and code.
- bcrypt, JWT signing and verification, and cookie parsing: these are opaque function parameters. Token expiry is checked only as the `expiresInSeconds` value that is signed.
- SessionsController.Login: its contract says only "some user with this e-mail" when several users share one. `findOne` picks one in store order, and the model does not fix which. `Invariants.LoginSucceedsIffPasswordMatches` pins it down when e-mails are unique. Login is a ghost function because of that choice.
- Request values that are not strings (numbers, arrays, objects in a JSON body), and body keys outside the user and pet fields in `updateUser`/`updatePet`: fields are strings or absent.
- `updatePet` takes any body, so `{adopted: true}` without an owner is accepted. `OwnerIffAdopted` is claimed for it only when the body sets neither `adopted` nor `owner` (`Invariants.UpdatePetKeepsOwnerIffAdopted`).
- SessionsController.CurrentAfterLogin: its hypothesis that verification returns exactly the signed claims is an idealisation. The JWT library's `verify` returns the payload with the `iat` and `exp` claims added, so the real library never meets it exactly. The model's claims have no `iat` or `exp` field, so the lemma speaks only of the claims the login put in.
- Dates are strings: the value of `new Date()` is a parameter, and the driver's conversion of a birth-date string to a date is not modelled.
- Fresh ids: each insert takes the new id as a parameter required to be unused. That is the guarantee the driver gives.
- Logging, static files, templating, API documentation, the server bootstrap and the mock-data generators: these contain no request logic, or depend on random data and bulk I/O.

=== FILE: adoption_router.dfy ===
/** `src/routes/adoption.router.js`, the adoption routes the application
    mounts: `GET /:aid` and `POST /:uid/:pid`. They answer errors themselves
    instead of throwing, so every call yields a store and a reply. */
module AdoptionRouter {
  import opened Wrappers
  import opened Js
  import opened Errors
  import opened Store
  import opened Replies
  import AdoptionsController

  const ServerError: string := "Error interno del servidor"
  const InvalidId: string := "ID inválido proporcionado"

  function Fail(status: int, message: string): Reply {
    Reply(status, ErrorText(message), NoCookie)
  }

  /** The `name` property of a thrown value. */
  function ErrorName(t: Thrown): string {
    match t
    case Raised(e) => e.name
    case CastError(_) => "CastError"
  }

  /** The `catch` of `POST /:uid/:pid`: a `CastError` is the client's fault
      (400), anything else is a server error (500). */
  function CatchCreate(t: Thrown): (r: Reply)
    ensures r.status == 400 <==> ErrorName(t) == "CastError"
    ensures r.status == 500 <==> ErrorName(t) != "CastError"
    ensures t.CastError? ==> r == Fail(400, InvalidId)
  {
    if ErrorName(t) == "CastError" then Fail(400, InvalidId) else Fail(500, ServerError)
  }

  /** `GET /:aid`: 400 without an id, 404 for an absent adoption, and the
      stored record otherwise. Its `catch` has no `CastError` case, so an id
      the driver cannot cast is a 500. */
  function GetAdoption(s: Store, aid: Field, castable: Id -> bool): (r: Reply)
    ensures !Truthy(aid) ==> r == Fail(400, "ID de adopción requerido")
    ensures Truthy(aid) && !castable(aid.value) ==> r == Fail(500, ServerError)
    ensures Truthy(aid) && castable(aid.value) && aid.value !in s.adoptions
            ==> r == Fail(404, "Adopción no encontrada")
    ensures r.status == 200 <==> Truthy(aid) && castable(aid.value) && aid.value in s.adoptions
    ensures r.status == 200 ==> r.body == Payload(AdoptionDoc(aid.value, s.adoptions[aid.value]))
  {
    if !Truthy(aid) then Fail(400, "ID de adopción requerido")
    else
      match Find(s.adoptions, aid.value, castable)
      case Failure(_) => Fail(500, ServerError)
      case Success(None) => Fail(404, "Adopción no encontrada")
      case Success(Some(a)) => Ok(Payload(AdoptionDoc(aid.value, a)))
  }

  /** `POST /:uid/:pid`: the same checks as the controller, then, in this
      order, saves the adoption `{owner: uid, pet: pid, date: now}`, marks the
      pet adopted by `uid`, and appends `pid` to the user's `pets`. */
  function CreateAdoption(s: Store, uid: Field, pid: Field, castable: Id -> bool,
                          newId: Id, now: string): (r: Outcome)
    requires newId !in s.adoptions
    ensures r.reply.status != 200 ==> r.store == s
    ensures !Truthy(uid) || !Truthy(pid) ==> r.reply == Fail(400, "User ID y Pet ID son requeridos")
    ensures Truthy(uid) && Truthy(pid) && !castable(uid.value) ==> r.reply == Fail(400, InvalidId)
    ensures Truthy(uid) && Truthy(pid) && castable(uid.value) && uid.value !in s.users
            ==> r.reply == Fail(404, "Usuario no encontrado")
    ensures Truthy(uid) && Truthy(pid) && castable(uid.value) && uid.value in s.users
            && !castable(pid.value)
            ==> r.reply == Fail(400, InvalidId)
    ensures Truthy(uid) && Truthy(pid) && castable(uid.value) && uid.value in s.users
            && castable(pid.value) && pid.value !in s.pets
            ==> r.reply == Fail(404, "Mascota no encontrada")
    ensures Truthy(uid) && Truthy(pid) && castable(uid.value) && uid.value in s.users
            && castable(pid.value) && pid.value in s.pets && s.pets[pid.value].adopted
            ==> r.reply == Fail(400, "La mascota ya está adoptada")
    ensures r.reply.status == 200 <==>
            && Truthy(uid) && Truthy(pid) && castable(uid.value) && castable(pid.value)
            && uid.value in s.users && pid.value in s.pets && !s.pets[pid.value].adopted
    ensures r.reply.status == 200
            ==> AdoptionsController.AdoptionApplied(s, r.store, uid.value, pid.value, newId, Some(now))
    ensures r.reply.status == 200 ==> r.reply == Ok(InfoWithId("Pet adopted", "adoptionId", newId))
  {
    if !Truthy(uid) || !Truthy(pid) then Outcome(s, Fail(400, "User ID y Pet ID son requeridos"))
    else
      var u, p := uid.value, pid.value;
      match Find(s.users, u, castable)
      case Failure(e) => Outcome(s, CatchCreate(e))
      case Success(None) => Outcome(s, Fail(404, "Usuario no encontrado"))
      case Success(Some(user)) =>
        match Find(s.pets, p, castable)
        case Failure(e) => Outcome(s, CatchCreate(e))
        case Success(None) => Outcome(s, Fail(404, "Mascota no encontrada"))
        case Success(Some(pet)) =>
          if pet.adopted then Outcome(s, Fail(400, "La mascota ya está adoptada"))
          else
            var s1 := s.InsertAdoption(newId, Adoption(u, p, Some(now)));
            var s2 := s1.UpdatePet(p, AdoptedBy(u));
            var s3 := s2.UpdateUser(u, SetPets(user.pets + [p]));
            Outcome(s3, Ok(InfoWithId("Pet adopted", "adoptionId", newId)))
  }

  /** The mounted route and the controller agree: they succeed on the same
      requests, leave the same store apart from the adoption's date, and
      fail with the same status; a cast failure is a 400 here where the
      controller lets it propagate. */
  lemma RouterMatchesController(s: Store, uid: Field, pid: Field, castable: Id -> bool,
                                newId: Id, now: string)
    requires newId !in s.adoptions
    ensures var c := AdoptionsController.CreateAdoption(s, uid, pid, castable, newId);
            var r := CreateAdoption(s, uid, pid, castable, newId, now);
            && (c.Success? <==> r.reply.status == 200)
            && (c.Success? ==> r.store == c.value.store.(adoptions := c.value.store.adoptions[newId := Adoption(uid.value, pid.value, Some(now))]))
            && (c.Success? ==> r.reply == c.value.reply)
            && (c.Failure? && c.error.Raised? ==> r.reply.status == c.error.error.code)
            && (c.Failure? && c.error.CastError? ==> r.reply == Fail(400, InvalidId))
  {
  }

  /** `GET /:aid` and the controller's `getAdoption` agree: they succeed on
      the same requests with the same reply, and a controller error's code is
      the route's status, except that a cast failure is a 500 here. */
  lemma GetAdoptionMatchesController(s: Store, aid: Field, castable: Id -> bool)
    ensures var c := AdoptionsController.GetAdoption(s, aid, castable);
            var r := GetAdoption(s, aid, castable);
            && (c.Success? <==> r.status == 200)
            && (c.Success? ==> r == c.value)
            && (c.Failure? && c.error.Raised? ==> r.status == c.error.error.code)
            && (c.Failure? && c.error.CastError? ==> r == Fail(500, ServerError))
  {
  }
}

=== FILE: adoptions_controller.dfy ===
/** `src/controllers/adoptions.controller.js`: `getAdoption` and `createAdoption`. */
module AdoptionsController {
  import opened Wrappers
  import opened Js
  import opened Errors
  import opened Store
  import opened Replies

  const IdsRequired: string := "User ID y Pet ID son requeridos"
  const AdoptionIdRequired: string := "ID de adopción es requerido"

  /** What a successful adoption does to the store: user `uid` gets `pid`
      appended to `pets`, pet `pid` becomes adopted by `uid`, one adoption
      `{owner: uid, pet: pid}` is added under the fresh id `aid`, and nothing
      else changes. */
  ghost predicate AdoptionApplied(s: Store, s': Store, uid: Id, pid: Id, aid: Id, date: Option<string>)
  {
    && uid in s.users && pid in s.pets && aid !in s.adoptions
    && s'.users.Keys == s.users.Keys
    && s'.users[uid] == s.users[uid].(pets := s.users[uid].pets + [pid])
    && (forall k :: k in s.users && k != uid ==> s'.users[k] == s.users[k])
    && s'.pets.Keys == s.pets.Keys
    && s'.pets[pid] == s.pets[pid].(adopted := true, owner := Some(uid))
    && (forall k :: k in s.pets && k != pid ==> s'.pets[k] == s.pets[k])
    && s'.adoptions == s.adoptions[aid := Adoption(uid, pid, date)]
  }

  /** `getAdoption`: the adoption stored under `aid`, returned unchanged. */
  function GetAdoption(s: Store, aid: Field, castable: Id -> bool): (r: Result<Reply, Thrown>)
    ensures !Truthy(aid) ==> r == Failure(Error("ValidationError", AdoptionIdRequired, 400))
    ensures Truthy(aid) && !castable(aid.value) ==> r == Failure(CastError(aid.value))
    ensures Truthy(aid) && castable(aid.value) && aid.value !in s.adoptions
            ==> r == Failure(KindError("NotFoundError", ADOPTION_NOT_FOUND))
    ensures r.Success? <==> Truthy(aid) && castable(aid.value) && aid.value in s.adoptions
    ensures r.Success? ==> r.value == Ok(Payload(AdoptionDoc(aid.value, s.adoptions[aid.value])))
  {
    if !Truthy(aid) then Failure(Error("ValidationError", AdoptionIdRequired, 400))
    else
      match Find(s.adoptions, aid.value, castable)
      case Failure(e) => Failure(e)
      case Success(None) => Failure(KindError("NotFoundError", ADOPTION_NOT_FOUND))
      case Success(Some(a)) => Success(Ok(Payload(AdoptionDoc(aid.value, a))))
  }

  /** `createAdoption`: checks, in order, that both ids are given, that the
      user exists, that the pet exists and that the pet is not adopted, then
      appends the pet to the user's list, marks the pet adopted by the user
      and inserts the adoption (in that order) under the fresh id `newId`. */
  function CreateAdoption(s: Store, uid: Field, pid: Field, castable: Id -> bool, newId: Id)
    : (r: Result<Outcome, Thrown>)
    requires newId !in s.adoptions
    ensures !Truthy(uid) || !Truthy(pid) ==> r == Failure(Error("ValidationError", IdsRequired, 400))
    ensures Truthy(uid) && Truthy(pid) && !castable(uid.value) ==> r == Failure(CastError(uid.value))
    ensures Truthy(uid) && Truthy(pid) && castable(uid.value) && uid.value !in s.users
            ==> r == Failure(KindError("NotFoundError", USER_NOT_FOUND))
    ensures Truthy(uid) && Truthy(pid) && castable(uid.value) && uid.value in s.users
            && !castable(pid.value)
            ==> r == Failure(CastError(pid.value))
    ensures Truthy(uid) && Truthy(pid) && castable(uid.value) && uid.value in s.users
            && castable(pid.value) && pid.value !in s.pets
            ==> r == Failure(KindError("NotFoundError", PET_NOT_FOUND))
    ensures Truthy(uid) && Truthy(pid) && castable(uid.value) && uid.value in s.users
            && castable(pid.value) && pid.value in s.pets && s.pets[pid.value].adopted
            ==> r == Failure(KindError("BusinessLogicError", PET_ALREADY_ADOPTED))
    ensures r.Success? <==>
            && Truthy(uid) && Truthy(pid) && castable(uid.value) && castable(pid.value)
            && uid.value in s.users && pid.value in s.pets && !s.pets[pid.value].adopted
    ensures r.Success? ==> AdoptionApplied(s, r.value.store, uid.value, pid.value, newId, None)
    ensures r.Success? ==> r.value.reply == Ok(InfoWithId("Pet adopted", "adoptionId", newId))
  {
    if !Truthy(uid) || !Truthy(pid) then Failure(Error("ValidationError", IdsRequired, 400))
    else
      var u, p := uid.value, pid.value;
      match Find(s.users, u, castable)
      case Failure(e) => Failure(e)
      case Success(None) => Failure(KindError("NotFoundError", USER_NOT_FOUND))
      case Success(Some(user)) =>
        match Find(s.pets, p, castable)
        case Failure(e) => Failure(e)
        case Success(None) => Failure(KindError("NotFoundError", PET_NOT_FOUND))
        case Success(Some(pet)) =>
          if pet.adopted then Failure(KindError("BusinessLogicError", PET_ALREADY_ADOPTED))
          else
            var s1 := s.UpdateUser(u, SetPets(user.pets + [p]));
            var s2 := s1.UpdatePet(p, AdoptedBy(u));
            var s3 := s2.InsertAdoption(newId, Adoption(u, p, None));
            Success(Outcome(s3, Ok(InfoWithId("Pet adopted", "adoptionId", newId))))
  }

  /** Missing ids are rejected before any lookup: the answer depends neither
      on the store nor on the driver. */
  lemma MissingIdsSkipLookups(s1: Store, s2: Store, uid: Field, pid: Field,
                              c1: Id -> bool, c2: Id -> bool, n1: Id, n2: Id)
    requires n1 !in s1.adoptions && n2 !in s2.adoptions
    requires !Truthy(uid) || !Truthy(pid)
    ensures CreateAdoption(s1, uid, pid, c1, n1) == CreateAdoption(s2, uid, pid, c2, n2)
    ensures CreateAdoption(s1, uid, pid, c1, n1).Failure?
  {
  }

  /** The user check comes first: an absent user is reported whatever the
      pets collection holds, so also when the pet is absent too. */
  lemma UserCheckPrecedesPetCheck(s: Store, pets: map<Id, Pet>, uid: Id, pid: Id,
                                  castable: Id -> bool, newId: Id)
    requires newId !in s.adoptions
    requires uid != "" && pid != "" && castable(uid) && uid !in s.users
    ensures CreateAdoption(s, Some(uid), Some(pid), castable, newId)
         == CreateAdoption(s.(pets := pets), Some(uid), Some(pid), castable, newId)
         == Failure(KindError("NotFoundError", USER_NOT_FOUND))
  {
  }

  /** Once adopted, a pet cannot be adopted again, by the same user or another. */
  lemma NoSecondAdoption(s: Store, uid: Id, pid: Id, other: Id, castable: Id -> bool,
                         n1: Id, n2: Id)
    requires n1 !in s.adoptions && n2 !in s.adoptions && n1 != n2
    requires uid != "" && pid != "" && other != ""
    requires castable(uid) && castable(pid) && castable(other)
    requires uid in s.users && other in s.users && pid in s.pets && !s.pets[pid].adopted
    ensures var first := CreateAdoption(s, Some(uid), Some(pid), castable, n1);
            && first.Success?
            && CreateAdoption(first.value.store, Some(other), Some(pid), castable, n2)
               == Failure(KindError("BusinessLogicError", PET_ALREADY_ADOPTED))
  {
  }
}

=== FILE: email.dfy ===
/** The e-mail format check of registration: the regular expression
    `^[^\s@]+@[^\s@]+\.[^\s@]+$`, stated as a pattern, as a structural
    predicate, and decided by a one-pass scanner. */
module Email {

  /** JavaScript's `\s` class: the ECMAScript white space and line terminators. */
  predicate IsSpace(c: char) {
    c in {'\t', '\n', '\U{000B}', '\U{000C}', '\r', ' ', '\U{00A0}', '\U{1680}',
          '\U{2028}', '\U{2029}', '\U{202F}', '\U{205F}', '\U{3000}', '\U{FEFF}'}
    || ('\U{2000}' <= c <= '\U{200A}')
  }

  /** A character the class `[^\s@]` accepts. */
  predicate Plain(c: char) {
    !IsSpace(c) && c != '@'
  }

  predicate AllPlain(s: string) {
    forall k :: 0 <= k < |s| ==> Plain(s[k])
  }

  /** The regular expression, read as a decomposition: a non-empty local part,
      one '@', a non-empty host, a '.', and a non-empty last label, where
      every part is `[^\s@]+`. The host may itself contain dots. */
  ghost predicate MatchesPattern(s: string) {
    exists i, j :: 0 < i && i + 1 < j && j + 1 < |s| && s[i] == '@' && s[j] == '.'
      && AllPlain(s[..i]) && AllPlain(s[i + 1..j]) && AllPlain(s[j + 1..])
  }

  /** Number of occurrences of `c` in `s`. */
  function Count(s: string, c: char): nat
    decreases |s|
  {
    if |s| == 0 then 0
    else Count(s[..|s| - 1], c) + (if s[|s| - 1] == c then 1 else 0)
  }

  /** Position of the first `c` in `s`, or `|s|` when there is none. */
  function IndexOf(s: string, c: char): (r: nat)
    ensures r <= |s|
    ensures r < |s| ==> s[r] == c
    ensures forall k :: 0 <= k < r ==> s[k] != c
  {
    if |s| == 0 then 0
    else if s[0] == c then 0
    else 1 + IndexOf(s[1..], c)
  }

  predicate NoSpace(s: string) {
    forall k :: 0 <= k < |s| ==> !IsSpace(s[k])
  }

  /** `d` has a '.' that is neither its first nor its last character. */
  predicate HasInnerDot(d: string) {
    exists k :: 0 < k < |d| - 1 && d[k] == '.'
  }

  /** The accepted addresses, stated field by field: no white space, exactly
      one '@', a non-empty local part, and a domain with an inner '.'. */
  predicate IsValidEmail(s: string) {
    && NoSpace(s)
    && Count(s, '@') == 1
    && var i := IndexOf(s, '@');
       0 < i < |s| && HasInnerDot(s[i + 1..])
  }

  lemma {:induction false} CountAbsent(s: string, c: char)
    requires forall k :: 0 <= k < |s| ==> s[k] != c
    ensures Count(s, c) == 0
    decreases |s|
  {
    if |s| > 0 {
      CountAbsent(s[..|s| - 1], c);
    }
  }

  lemma {:induction false} CountZeroAbsent(s: string, c: char, i: int)
    requires Count(s, c) == 0 && 0 <= i < |s|
    ensures s[i] != c
    decreases |s|
  {
    if i < |s| - 1 {
      CountZeroAbsent(s[..|s| - 1], c, i);
    }
  }

  /** A character found at exactly one position occurs exactly once. */
  lemma {:induction false} CountSingle(s: string, c: char, i: int)
    requires 0 <= i < |s| && s[i] == c
    requires forall k :: 0 <= k < |s| && k != i ==> s[k] != c
    ensures Count(s, c) == 1
    decreases |s|
  {
    var p := s[..|s| - 1];
    if i == |s| - 1 {
      CountAbsent(p, c);
    } else {
      CountSingle(p, c, i);
    }
  }

  /** A character that occurs once occurs at no other position. */
  lemma {:induction false} CountOneUnique(s: string, c: char, i: int, k: int)
    requires Count(s, c) == 1 && 0 <= i < |s| && s[i] == c
    requires 0 <= k < |s| && k != i
    ensures s[k] != c
    decreases |s|
  {
    var p := s[..|s| - 1];
    if i == |s| - 1 {
      CountZeroAbsent(p, c, k);
    } else if s[|s| - 1] == c {
      CountZeroAbsent(p, c, i);
    } else if k < |s| - 1 {
      CountOneUnique(p, c, i, k);
    }
  }

  /** The three properties of `IndexOf` determine it. */
  lemma IndexOfUnique(s: string, c: char, r: nat)
    requires r <= |s| && (r < |s| ==> s[r] == c)
    requires forall k :: 0 <= k < r ==> s[k] != c
    ensures IndexOf(s, c) == r
  {
  }

  lemma PatternIsValid(s: string)
    requires MatchesPattern(s)
    ensures IsValidEmail(s)
  {
    var i, j :| 0 < i && i + 1 < j && j + 1 < |s| && s[i] == '@' && s[j] == '.'
      && AllPlain(s[..i]) && AllPlain(s[i + 1..j]) && AllPlain(s[j + 1..]);
    forall k | 0 <= k < |s| && k != i
      ensures s[k] != '@' && !IsSpace(s[k])
    {
      if k < i {
        assert s[k] == s[..i][k];
      } else if i < k < j {
        assert s[k] == s[i + 1..j][k - i - 1];
      } else if j < k {
        assert s[k] == s[j + 1..][k - j - 1];
      }
    }
    CountSingle(s, '@', i);
    IndexOfUnique(s, '@', i);
    var d := s[i + 1..];
    assert d[j - i - 1] == '.';
  }

  lemma ValidIsPattern(s: string)
    requires IsValidEmail(s)
    ensures MatchesPattern(s)
  {
    var i := IndexOf(s, '@');
    var d := s[i + 1..];
    var k :| 0 < k < |d| - 1 && d[k] == '.';
    var j := i + 1 + k;
    assert s[j] == '.';
    forall m | 0 <= m < |s| && m != i
      ensures Plain(s[m])
    {
      CountOneUnique(s, '@', i, m);
    }
    var local, host, tld := s[..i], s[i + 1..j], s[j + 1..];
    assert AllPlain(local) by {
      forall m | 0 <= m < |local| ensures Plain(local[m]) { assert local[m] == s[m]; }
    }
    assert AllPlain(host) by {
      forall m | 0 <= m < |host| ensures Plain(host[m]) { assert host[m] == s[i + 1 + m]; }
    }
    assert AllPlain(tld) by {
      forall m | 0 <= m < |tld| ensures Plain(tld[m]) { assert tld[m] == s[j + 1 + m]; }
    }
  }

  /** The field-by-field statement accepts exactly the strings the regular
      expression matches. */
  lemma EmailPatternIff(s: string)
    ensures MatchesPattern(s) <==> IsValidEmail(s)
  {
    if MatchesPattern(s) {
      PatternIsValid(s);
    }
    if IsValidEmail(s) {
      ValidIsPattern(s);
    }
  }

  /** One left-to-right pass that decides `IsValidEmail`: it records whether a
      white-space character was seen, how many '@' were seen, where the first
      '@' is, and where the first '.' after the host's first character is. */
  method ScanEmail(s: string) returns (ok: bool)
    ensures ok <==> IsValidEmail(s)
  {
    var space := false;
    var ats := 0;
    var at := 0;
    var dot := -1;
    var k := 0;
    while k < |s|
      invariant 0 <= at <= k <= |s|
      invariant at < k ==> s[at] == '@'
      invariant forall m :: 0 <= m < at ==> s[m] != '@'
      invariant ats == Count(s[..k], '@')
      invariant space <==> exists m :: 0 <= m < k && IsSpace(s[m])
      invariant dot == -1 ==> forall m :: at + 1 < m < k ==> s[m] != '.'
      invariant dot != -1 ==> at + 1 < dot < k && s[dot] == '.'
      invariant dot != -1 ==> forall m :: at + 1 < m < dot ==> s[m] != '.'
    {
      var c := s[k];
      assert s[..k + 1][..k] == s[..k];
      if IsSpace(c) {
        space := true;
      }
      if c == '@' {
        ats := ats + 1;
      }
      if at == k && c != '@' {
        at := k + 1;
      } else if dot == -1 && at + 1 < k && c == '.' {
        dot := k;
      }
      k := k + 1;
    }
    assert s[..k] == s;
    IndexOfUnique(s, '@', at);
    ok := !space && ats == 1 && 0 < at < |s| && dot != -1 && dot < |s| - 1;
    if at == |s| {
      CountAbsent(s, '@');
    }
    if 0 < at < |s| {
      var d := s[at + 1..];
      if HasInnerDot(d) {
        var x :| 0 < x < |d| - 1 && d[x] == '.';
        assert s[at + 1 + x] == '.';
      }
      if dot != -1 && dot < |s| - 1 {
        assert d[dot - at - 1] == '.';
      }
    }
  }
}

=== FILE: errors.dfy ===
/** The error helper and the error dictionary of `src/utils/CustomError.js`. */
module Errors {
  import opened Wrappers

  /** An `Error` object as `createError` builds it. */
  datatype AppError = AppError(name: string, message: string, cause: Option<string>, code: int)

  /** The options object passed to `createError`; an absent key is `None`. */
  datatype ErrorOptions = ErrorOptions(
    name: Option<string>, cause: Option<string>, message: Option<string>, code: Option<int>)

  /** Anything a handler can throw: an error raised through `createError`, or the
      document driver's failure to cast a string into a document id. */
  datatype Thrown = Raised(error: AppError) | CastError(value: string)

  const DefaultName: string := "Error"
  const DefaultCode: int := 500

  /** `CustomError.createError`: builds the error and throws it, so it never
      returns normally. Destructuring defaults apply only to absent keys, and
      `new Error(undefined)` has the empty message. */
  function CreateError(opts: ErrorOptions): (r: Result<(), Thrown>)
    ensures r.Failure? && r.error.Raised?
    ensures opts.name.Some? ==> r.error.error.name == opts.name.value
    ensures opts.name.None? ==> r.error.error.name == "Error"
    ensures opts.code.Some? ==> r.error.error.code == opts.code.value
    ensures opts.code.None? ==> r.error.error.code == 500
    ensures opts.message.Some? ==> r.error.error.message == opts.message.value
    ensures opts.message.None? ==> r.error.error.message == ""
    ensures r.error.error.cause == opts.cause
  {
    Failure(Raised(AppError(
      opts.name.GetOr(DefaultName),
      opts.message.GetOr(""),
      opts.cause,
      opts.code.GetOr(DefaultCode))))
  }

  /** The keys of `ErrorDictionary`. */
  datatype ErrorKind =
    | REGISTER_USER
    | CREATE_PET
    | USER_NOT_FOUND
    | PET_NOT_FOUND
    | ADOPTION_NOT_FOUND
    | PET_ALREADY_ADOPTED
    | INVALID_DATA_TYPE
    | INVALID_CREDENTIALS
    | INTERNAL_SERVER

  datatype Entry = Entry(code: int, message: string)

  /** `ErrorDictionary`: the code and the message of each kind. The codes
      partition the kinds into not-found (404), bad request (400),
      authentication (401) and server (500) errors. */
  function Dictionary(k: ErrorKind): (e: Entry)
    ensures e.code == 404 <==> k in {USER_NOT_FOUND, PET_NOT_FOUND, ADOPTION_NOT_FOUND}
    ensures e.code == 400 <==> k in {REGISTER_USER, CREATE_PET, PET_ALREADY_ADOPTED, INVALID_DATA_TYPE}
    ensures e.code == 401 <==> k == INVALID_CREDENTIALS
    ensures e.code == 500 <==> k == INTERNAL_SERVER
    ensures e.message != ""
  {
    match k
    case REGISTER_USER =>
      Entry(400, "Error al registrar el usuario. Campos obligatorios faltantes o inválidos.")
    case CREATE_PET => Entry(400, "Error al crear mascota. Verifica los datos ingresados.")
    case USER_NOT_FOUND => Entry(404, "Usuario no encontrado.")
    case PET_NOT_FOUND => Entry(404, "Mascota no encontrada.")
    case ADOPTION_NOT_FOUND => Entry(404, "Adopción no encontrada.")
    case PET_ALREADY_ADOPTED => Entry(400, "La mascota ya ha sido adoptada.")
    case INVALID_DATA_TYPE => Entry(400, "Los parámetros deben ser números válidos.")
    case INVALID_CREDENTIALS => Entry(401, "Credenciales inválidas.")
    case INTERNAL_SERVER => Entry(500, "Error interno del servidor.")
  }

  /** The thrown value of `createError({name, message, code})`, as every handler calls it. */
  function Error(name: string, message: string, code: int): Thrown {
    Raised(AppError(name, message, None, code))
  }

  /** The thrown value of `createError` fed from a dictionary entry. */
  function KindError(name: string, k: ErrorKind): Thrown {
    Error(name, Dictionary(k).message, Dictionary(k).code)
  }

  /** Throwing through `createError` with a name, a message and a code yields
      exactly `Error(name, message, code)`. */
  lemma CreateErrorIsError(name: string, message: string, code: int)
    ensures CreateError(ErrorOptions(Some(name), None, Some(message), Some(code)))
         == Failure(Error(name, message, code))
  {
  }
}

=== FILE: invariants.dfy ===
/** Store-wide invariants and the handlers that keep them: e-mails stay
    unique, and a pet is adopted exactly when it has an owner. Also the
    login flow's refusal to tell an unknown e-mail from a wrong password. */
module Invariants {
  import opened Wrappers
  import opened Js
  import opened Store
  import opened Replies
  import AdoptionsController
  import AdoptionRouter
  import SessionsController
  import PetsController
  import UsersController

  /** Registration refuses a taken e-mail, so it keeps e-mails unique. */
  lemma RegisterKeepsEmailsUnique(s: Store, b: SessionsController.RegisterBody,
                                  hash: string -> string, newId: Id)
    requires newId !in s.users && s.UniqueEmails()
    requires SessionsController.Register(s, b, hash, newId).Success?
    ensures SessionsController.Register(s, b, hash, newId).value.store.UniqueEmails()
  {
    var s' := SessionsController.Register(s, b, hash, newId).value.store;
    forall x, y | x in s'.users && y in s'.users && x != y
      ensures s'.users[x].email != s'.users[y].email
    {
      if x == newId {
        assert s'.users[y] == s.users[y];
      } else if y == newId {
        assert s'.users[x] == s.users[x];
      }
    }
  }

  /** An adoption, by either variant, keeps e-mails unique and keeps every
      pet's owner set exactly when it is adopted. */
  lemma AdoptionKeepsInvariants(s: Store, s': Store, uid: Id, pid: Id, aid: Id, date: Option<string>)
    requires AdoptionsController.AdoptionApplied(s, s', uid, pid, aid, date)
    requires s.UniqueEmails() && s.OwnerIffAdopted()
    ensures s'.UniqueEmails() && s'.OwnerIffAdopted()
  {
    forall x, y | x in s'.users && y in s'.users && x != y
      ensures s'.users[x].email != s'.users[y].email
    {
      assert s'.users[x].email == s.users[x].email;
      assert s'.users[y].email == s.users[y].email;
    }
  }

  lemma ControllerAdoptionKeepsInvariants(s: Store, uid: Field, pid: Field, castable: Id -> bool, newId: Id)
    requires newId !in s.adoptions && s.UniqueEmails() && s.OwnerIffAdopted()
    ensures var r := AdoptionsController.CreateAdoption(s, uid, pid, castable, newId);
            r.Success? ==> r.value.store.UniqueEmails() && r.value.store.OwnerIffAdopted()
  {
    var r := AdoptionsController.CreateAdoption(s, uid, pid, castable, newId);
    if r.Success? {
      AdoptionKeepsInvariants(s, r.value.store, uid.value, pid.value, newId, None);
    }
  }

  lemma RouterAdoptionKeepsInvariants(s: Store, uid: Field, pid: Field, castable: Id -> bool,
                                      newId: Id, now: string)
    requires newId !in s.adoptions && s.UniqueEmails() && s.OwnerIffAdopted()
    ensures var r := AdoptionRouter.CreateAdoption(s, uid, pid, castable, newId, now);
            r.store.UniqueEmails() && r.store.OwnerIffAdopted()
  {
    var r := AdoptionRouter.CreateAdoption(s, uid, pid, castable, newId, now);
    if r.reply.status == 200 {
      AdoptionKeepsInvariants(s, r.store, uid.value, pid.value, newId, Some(now));
    }
  }

  /** A created pet is not adopted and has no owner. */
  lemma CreatePetKeepsOwnerIffAdopted(s: Store, b: PetsController.PetBody, today: string, newId: Id)
    requires newId !in s.pets && s.OwnerIffAdopted()
    ensures var r := PetsController.CreatePet(s, b, today, newId);
            r.Success? ==> r.value.store.OwnerIffAdopted()
  {
  }

  /** Login cannot be used to learn whether an address is registered: an
      unknown e-mail and a known e-mail with a wrong password produce the
      same result. */
  lemma LoginHidesUnknownEmail(s1: Store, s2: Store, b: SessionsController.LoginBody,
                               flow: SessionsController.Flow,
                               verify: (User, string) -> bool, project: User -> map<string, string>,
                               sign: Token -> string, production: bool)
    requires Truthy(b.email) && Truthy(b.password)
    requires !s1.EmailTaken(b.email.value)
    requires forall k :: k in s2.users && s2.users[k].email == b.email.value
               ==> !verify(s2.users[k], b.password.value)
    ensures SessionsController.Login(s1, b, flow, verify, project, sign, production)
         == SessionsController.Login(s2, b, flow, verify, project, sign, production)
         == Failure(SessionsController.InvalidCredentials())
  {
  }

  /** With unique e-mails, login succeeds exactly when the account with that
      e-mail accepts the password, and then sets the cookie for that account. */
  lemma LoginSucceedsIffPasswordMatches(s: Store, b: SessionsController.LoginBody, uid: Id,
                                        flow: SessionsController.Flow,
                                        verify: (User, string) -> bool,
                                        project: User -> map<string, string>,
                                        sign: Token -> string, production: bool)
    requires s.UniqueEmails() && Truthy(b.email) && Truthy(b.password)
    requires uid in s.users && s.users[uid].email == b.email.value
    ensures var r := SessionsController.Login(s, b, flow, verify, project, sign, production);
            && (r.Success? <==> verify(s.users[uid], b.password.value))
            && (r.Success? ==> r.value == SessionsController.LoginReply(uid, s.users[uid], flow, project, sign, production))
  {
    var r := SessionsController.Login(s, b, flow, verify, project, sign, production);
    if r.Success? {
      var k :| k in s.users && s.users[k].email == b.email.value
               && verify(s.users[k], b.password.value)
               && r.value == SessionsController.LoginReply(k, s.users[k], flow, project, sign, production);
      assert k == uid;
    }
  }

  /** Deleting a user keeps both store invariants. */
  lemma DeleteUserKeepsInvariants(s: Store, uid: Field, castable: Id -> bool)
    requires s.UniqueEmails() && s.OwnerIffAdopted()
    ensures var r := UsersController.DeleteUser(s, uid, castable);
            r.Success? ==> r.value.store.UniqueEmails() && r.value.store.OwnerIffAdopted()
  {
  }

  /** Deleting a pet keeps both store invariants. */
  lemma DeletePetKeepsInvariants(s: Store, pid: Field, castable: Id -> bool)
    requires s.UniqueEmails() && s.OwnerIffAdopted()
    ensures var r := PetsController.DeletePet(s, pid, castable);
            r.Success? ==> r.value.store.UniqueEmails() && r.value.store.OwnerIffAdopted()
  {
  }

  /** A pet created with an image is not adopted and has no owner either. */
  lemma CreatePetWithImageKeepsInvariants(s: Store, b: PetsController.PetBody,
                                          file: Option<PetsController.UploadedFile>,
                                          dirname: string, today: string, newId: Id)
    requires newId !in s.pets && s.UniqueEmails() && s.OwnerIffAdopted()
    ensures var r := PetsController.CreatePetWithImage(s, b, file, dirname, today, newId);
            r.Success? ==> r.value.store.UniqueEmails() && r.value.store.OwnerIffAdopted()
  {
  }

  /** An update that touches neither `adopted` nor `owner` keeps every pet's
      owner set exactly when it is adopted. */
  lemma UpdatePetKeepsOwnerIffAdopted(s: Store, pid: Field, body: PetPatch, castable: Id -> bool)
    requires s.OwnerIffAdopted() && body.adopted.None? && body.owner.None?
    ensures var r := PetsController.UpdatePet(s, pid, body, castable);
            r.Success? ==> r.value.store.OwnerIffAdopted()
  {
  }

  /** A registered user can be read back: `getUser` on the new id returns
      the stored record, with the hashed password. */
  lemma GetUserAfterRegister(s: Store, b: SessionsController.RegisterBody, hash: string -> string,
                             newId: Id, castable: Id -> bool)
    requires newId !in s.users && newId != "" && castable(newId)
    requires SessionsController.Register(s, b, hash, newId).Success?
    ensures var s' := SessionsController.Register(s, b, hash, newId).value.store;
            UsersController.GetUser(s', Some(newId), castable)
              == Success(Ok(Payload(UserDoc(newId,
                   SessionsController.NewUser(b.first_name.value, b.last_name.value,
                                              b.email.value, hash(b.password.value))))))
  {
  }
}

=== FILE: js.dfy ===
/** The few JavaScript value rules the handlers rely on. */
module Js {
  import opened Wrappers

  /** A string-valued request field: `None` when the key is absent (`undefined`). */
  type Field = Option<string>

  /** JavaScript truthiness of a string field: `!x` holds when `x` is
      `undefined` or the empty string. */
  predicate Truthy(f: Field) {
    f.Some? && f.value != ""
  }

  /** `x || fallback` on a string field. */
  function OrElse(f: Field, fallback: string): string {
    if Truthy(f) then f.value else fallback
  }
}

=== FILE: pet_dto.dfy ===
/** `PetDTO.getPetInputFrom` of `src/dto/Pet.dto.js`. */
module PetDto {
  import opened Wrappers
  import opened Js
  import opened Store

  /** The object handed to the DTO; every key may be absent. */
  datatype PetSource = PetSource(name: Field, specie: Field, birthDate: Field, image: Field)

  /** The DTO's output object: exactly these five keys, and no `owner`. */
  datatype PetInput = PetInput(name: string, specie: string, image: string, birthDate: string, adopted: bool)

  /** Normalises a pet: truthy strings are copied, others default to '' and
      the birth date to `today` (the `new Date()` of the call); `adopted` is
      always false. */
  function GetPetInputFrom(src: PetSource, today: string): (r: PetInput)
    ensures !r.adopted
    ensures Truthy(src.name) ==> r.name == src.name.value
    ensures !Truthy(src.name) ==> r.name == ""
    ensures Truthy(src.specie) ==> r.specie == src.specie.value
    ensures !Truthy(src.specie) ==> r.specie == ""
    ensures Truthy(src.image) ==> r.image == src.image.value
    ensures !Truthy(src.image) ==> r.image == ""
    ensures Truthy(src.birthDate) ==> r.birthDate == src.birthDate.value
    ensures !Truthy(src.birthDate) ==> r.birthDate == today
  {
    PetInput(
      OrElse(src.name, ""),
      OrElse(src.specie, ""),
      OrElse(src.image, ""),
      OrElse(src.birthDate, today),
      false)
  }

  /** The document stored from a DTO output: no owner is set. */
  function ToPet(p: PetInput): Pet {
    Pet(p.name, p.specie, p.birthDate, p.image, p.adopted, None)
  }

  /** Normalising is idempotent: feeding the output back yields it again. */
  lemma GetPetInputIdempotent(src: PetSource, today: string, later: string)
    requires today != ""
    ensures var r := GetPetInputFrom(src, today);
      GetPetInputFrom(PetSource(Some(r.name), Some(r.specie), Some(r.birthDate), Some(r.image)), later) == r
  {
  }
}

=== FILE: pets_controller.dfy ===
/** `src/controllers/pets.controller.js`: `createPet`, `createPetWithImage`,
    `updatePet`, `deletePet`. */
module PetsController {
  import opened Wrappers
  import opened Js
  import opened Errors
  import opened Store
  import opened Replies
  import opened PetDto

  const FieldsRequired: string := "Nombre, especie y fecha de nacimiento son requeridos"
  const ImageRequired: string := "Imagen es requerida"
  const IdRequired: string := "ID de mascota es requerido"

  datatype PetBody = PetBody(name: Field, specie: Field, birthDate: Field)

  /** An uploaded file as the upload middleware describes it. */
  datatype UploadedFile = UploadedFile(filename: string)

  predicate HasRequiredFields(b: PetBody) {
    Truthy(b.name) && Truthy(b.specie) && Truthy(b.birthDate)
  }

  /** Where an uploaded image is served from, under the module directory `dirname`. */
  function ImagePath(dirname: string, f: UploadedFile): string {
    dirname + "/../public/img/" + f.filename
  }

  /** Stores the DTO-normalised pet under the fresh id and echoes it back. */
  function StorePet(s: Store, src: PetSource, today: string, newId: Id): Result<Outcome, Thrown>
    requires newId !in s.pets
  {
    var pet := ToPet(GetPetInputFrom(src, today));
    Success(Outcome(s.InsertPet(newId, pet), Ok(Payload(PetDoc(newId, pet)))))
  }

  /** `createPet`: name, specie and birth date are required; the stored pet
      is exactly what the DTO makes of them, so it has no image, is not
      adopted and has no owner. */
  function CreatePet(s: Store, b: PetBody, today: string, newId: Id): (r: Result<Outcome, Thrown>)
    requires newId !in s.pets
    ensures !HasRequiredFields(b) ==> r == Failure(Error("ValidationError", FieldsRequired, 400))
    ensures r.Success? <==> HasRequiredFields(b)
    ensures r.Success? ==>
            && r.value.store == s.(pets := s.pets[newId := Pet(b.name.value, b.specie.value, b.birthDate.value, "", false, None)])
            && r.value.reply == Ok(Payload(PetDoc(newId, r.value.store.pets[newId])))
  {
    if !HasRequiredFields(b) then Failure(Error("ValidationError", FieldsRequired, 400))
    else StorePet(s, PetSource(b.name, b.specie, b.birthDate, None), today, newId)
  }

  /** `createPetWithImage`: the field check comes before the file check; the
      stored pet's image is the uploaded file's public path. */
  function CreatePetWithImage(s: Store, b: PetBody, file: Option<UploadedFile>, dirname: string,
                              today: string, newId: Id): (r: Result<Outcome, Thrown>)
    requires newId !in s.pets
    ensures !HasRequiredFields(b) ==> r == Failure(Error("ValidationError", FieldsRequired, 400))
    ensures HasRequiredFields(b) && file.None? ==> r == Failure(Error("ValidationError", ImageRequired, 400))
    ensures r.Success? <==> HasRequiredFields(b) && file.Some?
    ensures r.Success? ==>
            && r.value.store == s.(pets := s.pets[newId := Pet(b.name.value, b.specie.value, b.birthDate.value,
                                                             ImagePath(dirname, file.value), false, None)])
            && r.value.reply == Ok(Payload(PetDoc(newId, r.value.store.pets[newId])))
  {
    if !HasRequiredFields(b) then Failure(Error("ValidationError", FieldsRequired, 400))
    else if file.None? then Failure(Error("ValidationError", ImageRequired, 400))
    else StorePet(s, PetSource(b.name, b.specie, b.birthDate, Some(ImagePath(dirname, file.value))), today, newId)
  }

  /** `updatePet`: 404 for an unknown pet; otherwise only that pet is patched
      with the body (an empty body is accepted and changes nothing). */
  function UpdatePet(s: Store, pid: Field, body: PetPatch, castable: Id -> bool): (r: Result<Outcome, Thrown>)
    ensures !Truthy(pid) ==> r == Failure(Error("ValidationError", IdRequired, 400))
    ensures Truthy(pid) && !castable(pid.value) ==> r == Failure(CastError(pid.value))
    ensures Truthy(pid) && castable(pid.value) && pid.value !in s.pets
            ==> r == Failure(KindError("NotFoundError", PET_NOT_FOUND))
    ensures r.Success? <==> Truthy(pid) && castable(pid.value) && pid.value in s.pets
    ensures r.Success? ==>
            && r.value.store == s.(pets := s.pets[pid.value := PatchPet(s.pets[pid.value], body)])
            && r.value.reply == Ok(InfoWithId("pet updated", "petId", pid.value))
  {
    if !Truthy(pid) then Failure(Error("ValidationError", IdRequired, 400))
    else
      match Find(s.pets, pid.value, castable)
      case Failure(e) => Failure(e)
      case Success(None) => Failure(KindError("NotFoundError", PET_NOT_FOUND))
      case Success(Some(_)) =>
        Success(Outcome(s.UpdatePet(pid.value, body), Ok(InfoWithId("pet updated", "petId", pid.value))))
  }

  /** `deletePet`: the same not-found rule; otherwise only that pet is removed. */
  function DeletePet(s: Store, pid: Field, castable: Id -> bool): (r: Result<Outcome, Thrown>)
    ensures !Truthy(pid) ==> r == Failure(Error("ValidationError", IdRequired, 400))
    ensures Truthy(pid) && !castable(pid.value) ==> r == Failure(CastError(pid.value))
    ensures Truthy(pid) && castable(pid.value) && pid.value !in s.pets
            ==> r == Failure(KindError("NotFoundError", PET_NOT_FOUND))
    ensures r.Success? <==> Truthy(pid) && castable(pid.value) && pid.value in s.pets
    ensures r.Success? ==>
            && r.value.store == s.(pets := s.pets - {pid.value})
            && |r.value.store.pets| == |s.pets| - 1
            && r.value.reply == Ok(InfoWithId("pet deleted", "petId", pid.value))
  {
    if !Truthy(pid) then Failure(Error("ValidationError", IdRequired, 400))
    else
      match Find(s.pets, pid.value, castable)
      case Failure(e) => Failure(e)
      case Success(None) => Failure(KindError("NotFoundError", PET_NOT_FOUND))
      case Success(Some(_)) =>
        Success(Outcome(s.DeletePet(pid.value), Ok(InfoWithId("pet deleted", "petId", pid.value))))
  }
}

=== FILE: replies.dfy ===
/** What a handler answers: the HTTP status, the JSON envelope, and the
    cookie it sets or clears. */
module Replies {
  import opened Store

  /** The claims a session token carries: the user projection of the login
      flow, or the whole stored record (hash included) of the unprotected flow. */
  datatype Claims = Projected(fields: map<string, string>) | FullRecord(id: Id, user: User)

  /** A session token before signing; the signature itself is not modelled. */
  datatype Token = Token(claims: Claims, expiresInSeconds: nat)

  datatype Cookie = Cookie(name: string, value: string, maxAgeMs: nat, httpOnly: bool, secure: bool)

  datatype CookieOp = NoCookie | SetCookie(cookie: Cookie) | ClearCookie(name: string)

  /** A document sent back as `payload`. */
  datatype Doc =
    | UserDoc(uid: Id, user: User)
    | PetDoc(pid: Id, pet: Pet)
    | AdoptionDoc(aid: Id, adoption: Adoption)
    | IdDoc(id: Id)
    | ClaimsDoc(claims: Claims)

  /** The JSON envelope: `{status:"success", payload}`,
      `{status:"success", message}`, `{status:"success", message, <key>: id}`
      or `{status:"error", error}`. */
  datatype Body =
    | Payload(doc: Doc)
    | Info(message: string)
    | InfoWithId(message: string, key: string, id: Id)
    | ErrorText(error: string)

  datatype Reply = Reply(status: int, body: Body, cookie: CookieOp)

  /** A `res.send` of a success envelope: status 200, no cookie. */
  function Ok(body: Body): Reply {
    Reply(200, body, NoCookie)
  }

  /** The store after a handler ran, and what it answered. */
  datatype Outcome = Outcome(store: Store, reply: Reply)
}

=== FILE: sessions_controller.dfy ===
/** `src/controllers/sessions.controller.js`: registration, the two login
    flows, the two session lookups, and logout. Hashing, password comparison,
    token signing and verification are opaque functions passed in. */
module SessionsController {
  import opened Wrappers
  import opened Js
  import opened Errors
  import opened Store
  import opened Replies
  import Email

  const AllFieldsRequired: string :=
    "Todos los campos son requeridos: first_name, last_name, email, password"
  const BadEmail: string := "Formato de email inválido"
  const AlreadyExists: string := "El usuario ya existe"
  const CredentialsRequired: string := "Email y password son requeridos"
  const NoToken: string := "No se encontró token de autenticación"
  const BadToken: string := "Token inválido o expirado"

  /** The token lifetime, `expiresIn: "1h"`, and the cookie's `maxAge`. */
  const TokenSeconds: nat := 3600
  const CookieMaxAgeMs: nat := 3600000

  const ProtectedCookie: string := "coderCookie"
  const UnprotectedCookie: string := "unprotectedCookie"

  datatype RegisterBody = RegisterBody(first_name: Field, last_name: Field, email: Field, password: Field)
  datatype LoginBody = LoginBody(email: Field, password: Field)

  /** The safe flow signs a projection of the user; the unprotected one signs
      the whole stored record. */
  datatype Flow = Protected | Unprotected

  /** The user a newly registered account is stored as; the role and the empty
      pet list are the user schema's defaults. */
  function NewUser(first_name: string, last_name: string, email: string, hashed: string): User {
    User(first_name, last_name, email, hashed, "user", [])
  }

  /** `register`: all four fields present, the e-mail well formed, the e-mail
      not yet registered; then stores the user with the hashed password under
      the fresh id `newId` and answers 201 with that id. */
  function Register(s: Store, b: RegisterBody, hash: string -> string, newId: Id)
    : (r: Result<Outcome, Thrown>)
    requires newId !in s.users
    ensures !Truthy(b.first_name) || !Truthy(b.last_name) || !Truthy(b.email) || !Truthy(b.password)
            ==> r == Failure(Error("ValidationError", AllFieldsRequired, 400))
    ensures Truthy(b.first_name) && Truthy(b.last_name) && Truthy(b.email) && Truthy(b.password)
            && !Email.IsValidEmail(b.email.value)
            ==> r == Failure(Error("ValidationError", BadEmail, 400))
    ensures Truthy(b.first_name) && Truthy(b.last_name) && Truthy(b.email) && Truthy(b.password)
            && Email.IsValidEmail(b.email.value) && s.EmailTaken(b.email.value)
            ==> r == Failure(Error("ConflictError", AlreadyExists, 409))
    ensures r.Success? <==>
            && Truthy(b.first_name) && Truthy(b.last_name) && Truthy(b.email) && Truthy(b.password)
            && Email.IsValidEmail(b.email.value) && !s.EmailTaken(b.email.value)
    ensures r.Success? ==>
            && r.value.store.pets == s.pets && r.value.store.adoptions == s.adoptions
            && newId in r.value.store.users
            && r.value.store.users == s.users[newId := r.value.store.users[newId]]
            && |r.value.store.users| == |s.users| + 1
            && r.value.store.users[newId].first_name == b.first_name.value
            && r.value.store.users[newId].last_name == b.last_name.value
            && r.value.store.users[newId].email == b.email.value
            && r.value.store.users[newId].password == hash(b.password.value)
            && r.value.reply == Reply(201, Payload(IdDoc(newId)), NoCookie)
  {
    if !Truthy(b.first_name) || !Truthy(b.last_name) || !Truthy(b.email) || !Truthy(b.password) then
      Failure(Error("ValidationError", AllFieldsRequired, 400))
    else if !Email.IsValidEmail(b.email.value) then
      Failure(Error("ValidationError", BadEmail, 400))
    else if s.EmailTaken(b.email.value) then
      Failure(Error("ConflictError", AlreadyExists, 409))
    else
      var user := NewUser(b.first_name.value, b.last_name.value, b.email.value, hash(b.password.value));
      Success(Outcome(s.InsertUser(newId, user), Reply(201, Payload(IdDoc(newId)), NoCookie)))
  }

  /** The one error both login failures produce. */
  function InvalidCredentials(): Thrown {
    KindError("AuthenticationError", INVALID_CREDENTIALS)
  }

  /** `login` and `unprotectedLogin`: both fields present; the user found by
      e-mail (`findOne` picks one when several share it) must accept the
      password. An unknown e-mail and a wrong password are the same error.
      On success a one-hour token is set as a one-hour http-only cookie. */
  ghost function Login(s: Store, b: LoginBody, flow: Flow,
                       verify: (User, string) -> bool,
                       project: User -> map<string, string>,
                       sign: Token -> string, production: bool)
    : (r: Result<Reply, Thrown>)
    ensures !Truthy(b.email) || !Truthy(b.password)
            ==> r == Failure(Error("ValidationError", CredentialsRequired, 400))
    ensures Truthy(b.email) && Truthy(b.password) && r.Failure? ==> r.error == InvalidCredentials()
    ensures Truthy(b.email) && !s.EmailTaken(b.email.value) ==> r.Failure?
    ensures r.Success? ==>
            exists k :: k in s.users && s.users[k].email == b.email.value
                     && verify(s.users[k], b.password.value)
                     && r.value == LoginReply(k, s.users[k], flow, project, sign, production)
  {
    if !Truthy(b.email) || !Truthy(b.password) then
      Failure(Error("ValidationError", CredentialsRequired, 400))
    else if !s.EmailTaken(b.email.value) then
      Failure(InvalidCredentials())
    else
      var k :| k in s.users && s.users[k].email == b.email.value;
      if !verify(s.users[k], b.password.value) then Failure(InvalidCredentials())
      else Success(LoginReply(k, s.users[k], flow, project, sign, production))
  }

  /** The reply of a successful login of user `uid`. */
  function LoginReply(uid: Id, user: User, flow: Flow, project: User -> map<string, string>,
                      sign: Token -> string, production: bool): (r: Reply)
    ensures r.status == 200 && r.cookie.SetCookie?
    ensures r.cookie.cookie.httpOnly && r.cookie.cookie.secure == production
    ensures r.cookie.cookie.maxAgeMs == 1000 * TokenSeconds
    ensures flow.Protected? ==>
              && r.cookie.cookie.name == ProtectedCookie
              && r.cookie.cookie.value == sign(Token(Projected(project(user)), TokenSeconds))
    ensures flow.Unprotected? ==>
              && r.cookie.cookie.name == UnprotectedCookie
              && r.cookie.cookie.value == sign(Token(FullRecord(uid, user), TokenSeconds))
  {
    match flow
    case Protected =>
      var token := Token(Projected(project(user)), TokenSeconds);
      Reply(200, Info("Logged in"),
            SetCookie(Cookie(ProtectedCookie, sign(token), CookieMaxAgeMs, true, production)))
    case Unprotected =>
      var token := Token(FullRecord(uid, user), TokenSeconds);
      Reply(200, Info("Unprotected Logged in"),
            SetCookie(Cookie(UnprotectedCookie, sign(token), CookieMaxAgeMs, true, production)))
  }

  /** The value of a request cookie, absent when the request has none. */
  function CookieValue(cookies: map<string, string>, name: string): Field {
    if name in cookies then Some(cookies[name]) else None
  }

  /** `current` and `unprotectedCurrent`: the token in the flow's cookie,
      verified; a missing cookie and a token that fails verification are
      both 401, with different messages. */
  function Current(cookies: map<string, string>, flow: Flow, verify: string -> Option<Claims>)
    : (r: Result<Reply, Thrown>)
    ensures var c := CookieValue(cookies, if flow.Protected? then ProtectedCookie else UnprotectedCookie);
            && (!Truthy(c) ==> r == Failure(Error("AuthenticationError", NoToken, 401)))
            && (Truthy(c) && verify(c.value).None?
                ==> r == Failure(Error("AuthenticationError", BadToken, 401)))
            && (r.Success? <==> Truthy(c) && verify(c.value).Some?)
            && (r.Success? ==> r.value == Ok(Payload(ClaimsDoc(verify(c.value).value))))
  {
    var name := if flow.Protected? then ProtectedCookie else UnprotectedCookie;
    var c := CookieValue(cookies, name);
    if !Truthy(c) then Failure(Error("AuthenticationError", NoToken, 401))
    else match verify(c.value)
      case None => Failure(Error("AuthenticationError", BadToken, 401))
      case Some(claims) => Success(Ok(Payload(ClaimsDoc(claims))))
  }

  /** `logout`: always succeeds and clears only the protected flow's cookie. */
  function Logout(): (r: Reply)
    ensures r.status == 200 && r.cookie == ClearCookie(ProtectedCookie)
    ensures r.cookie != ClearCookie(UnprotectedCookie)
  {
    Reply(200, Info("Logged out successfully"), ClearCookie(ProtectedCookie))
  }

  /** The claims a login of `uid` signs into its cookie. */
  function SignedClaims(uid: Id, user: User, flow: Flow, project: User -> map<string, string>): Claims {
    match flow
    case Protected => Projected(project(user))
    case Unprotected => FullRecord(uid, user)
  }

  /** Login then session lookup: when verification undoes signing and a signed
      token is never empty, presenting the cookie a login set makes `current`
      (for the same flow) return exactly the claims that login signed. */
  lemma CurrentAfterLogin(uid: Id, user: User, flow: Flow, project: User -> map<string, string>,
                          sign: Token -> string, verify: string -> Option<Claims>, production: bool)
    requires forall t :: sign(t) != "" && verify(sign(t)) == Some(t.claims)
    ensures var c := LoginReply(uid, user, flow, project, sign, production).cookie.cookie;
            Current(map[c.name := c.value], flow, verify)
              == Success(Ok(Payload(ClaimsDoc(SignedClaims(uid, user, flow, project)))))
  {
    var t := Token(SignedClaims(uid, user, flow, project), TokenSeconds);
    assert verify(sign(t)) == Some(t.claims);
  }
}

=== FILE: store.dfy ===
/** The document store the handlers read and write: three collections of
    records keyed by opaque ids, with the driver operations the handlers use. */
module Store {
  import opened Wrappers
  import opened Errors

  type Id = string

  /** A stored user; `password` holds the hash, never the plaintext. */
  datatype User = User(
    first_name: string, last_name: string, email: string,
    password: string, role: string, pets: seq<Id>)

  datatype Pet = Pet(
    name: string, specie: string, birthDate: string, image: string,
    adopted: bool, owner: Option<Id>)

  /** An adoption record; `date` is absent when the writer did not set one. */
  datatype Adoption = Adoption(owner: Id, pet: Id, date: Option<string>)

  /** A partial update of a user (the `$set` of an update call); `None` leaves the field alone. */
  datatype UserPatch = UserPatch(
    first_name: Option<string>, last_name: Option<string>, email: Option<string>,
    password: Option<string>, role: Option<string>, pets: Option<seq<Id>>)
  {
    /** `Object.keys(patch).length === 0`. */
    predicate IsEmpty() {
      first_name.None? && last_name.None? && email.None? && password.None?
      && role.None? && pets.None?
    }
  }

  /** A partial update of a pet; `owner` may be set to null (`Some(None)`). */
  datatype PetPatch = PetPatch(
    name: Option<string>, specie: Option<string>, birthDate: Option<string>,
    image: Option<string>, adopted: Option<bool>, owner: Option<Option<Id>>)

  /** The patch that sets only `pets`. */
  function SetPets(pets: seq<Id>): UserPatch {
    UserPatch(None, None, None, None, None, Some(pets))
  }

  /** The patch `{adopted: true, owner: uid}`. */
  function AdoptedBy(uid: Id): PetPatch {
    PetPatch(None, None, None, None, Some(true), Some(Some(uid)))
  }

  function PatchUser(u: User, p: UserPatch): (r: User)
    ensures p.IsEmpty() ==> r == u
  {
    User(
      p.first_name.GetOr(u.first_name), p.last_name.GetOr(u.last_name),
      p.email.GetOr(u.email), p.password.GetOr(u.password),
      p.role.GetOr(u.role), p.pets.GetOr(u.pets))
  }

  function PatchPet(q: Pet, p: PetPatch): Pet {
    Pet(
      p.name.GetOr(q.name), p.specie.GetOr(q.specie), p.birthDate.GetOr(q.birthDate),
      p.image.GetOr(q.image), p.adopted.GetOr(q.adopted), p.owner.GetOr(q.owner))
  }

  datatype Store = Store(users: map<Id, User>, pets: map<Id, Pet>, adoptions: map<Id, Adoption>)
  {
    /** `update(id, patch)`: patches the user with that id; no document matches an absent id. */
    function UpdateUser(id: Id, p: UserPatch): (s: Store)
      ensures s.pets == pets && s.adoptions == adoptions
      ensures s.users.Keys == users.Keys
      ensures id in users ==> s.users[id] == PatchUser(users[id], p)
      ensures forall k :: k in users && k != id ==> s.users[k] == users[k]
    {
      if id in users then this.(users := users[id := PatchUser(users[id], p)]) else this
    }

    function UpdatePet(id: Id, p: PetPatch): (s: Store)
      ensures s.users == users && s.adoptions == adoptions
      ensures s.pets.Keys == pets.Keys
      ensures id in pets ==> s.pets[id] == PatchPet(pets[id], p)
      ensures forall k :: k in pets && k != id ==> s.pets[k] == pets[k]
    {
      if id in pets then this.(pets := pets[id := PatchPet(pets[id], p)]) else this
    }

    /** `create`: inserts a document under the fresh id the driver assigns. */
    function InsertUser(id: Id, u: User): (s: Store)
      requires id !in users
      ensures s.pets == pets && s.adoptions == adoptions
      ensures s.users.Keys == users.Keys + {id} && |s.users| == |users| + 1
      ensures s.users[id] == u
      ensures forall k :: k in users ==> s.users[k] == users[k]
    {
      this.(users := users[id := u])
    }

    function InsertPet(id: Id, q: Pet): (s: Store)
      requires id !in pets
      ensures s.users == users && s.adoptions == adoptions
      ensures s.pets.Keys == pets.Keys + {id} && |s.pets| == |pets| + 1
      ensures s.pets[id] == q
      ensures forall k :: k in pets ==> s.pets[k] == pets[k]
    {
      this.(pets := pets[id := q])
    }

    function InsertAdoption(id: Id, a: Adoption): (s: Store)
      requires id !in adoptions
      ensures s.users == users && s.pets == pets
      ensures s.adoptions.Keys == adoptions.Keys + {id} && |s.adoptions| == |adoptions| + 1
      ensures s.adoptions[id] == a
      ensures forall k :: k in adoptions ==> s.adoptions[k] == adoptions[k]
    {
      this.(adoptions := adoptions[id := a])
    }

    /** `delete(id)`. */
    function DeleteUser(id: Id): (s: Store)
      ensures s.pets == pets && s.adoptions == adoptions
      ensures s.users.Keys == users.Keys - {id}
      ensures forall k :: k in s.users ==> s.users[k] == users[k]
    {
      this.(users := users - {id})
    }

    function DeletePet(id: Id): (s: Store)
      ensures s.users == users && s.adoptions == adoptions
      ensures s.pets.Keys == pets.Keys - {id}
      ensures forall k :: k in s.pets ==> s.pets[k] == pets[k]
    {
      this.(pets := pets - {id})
    }

    /** No two users share an e-mail address. */
    ghost predicate UniqueEmails() {
      forall a, b :: a in users && b in users && a != b ==> users[a].email != users[b].email
    }

    /** A pet is adopted exactly when it has an owner. */
    ghost predicate OwnerIffAdopted() {
      forall k :: k in pets ==> (pets[k].adopted <==> pets[k].owner.Some?)
    }

    /** `getUserByEmail(email)` finds some user: is there one? */
    predicate EmailTaken(email: string) {
      exists k :: k in users && users[k].email == email
    }
  }

  /** A lookup by id: the driver first casts the id string, and a string it
      cannot cast makes the lookup throw; otherwise the document or nothing. */
  function Find<T>(m: map<Id, T>, id: Id, castable: Id -> bool): Result<Option<T>, Thrown> {
    if !castable(id) then Failure(CastError(id))
    else if id in m then Success(Some(m[id]))
    else Success(None)
  }
}

=== FILE: users_controller.dfy ===
/** `src/controllers/users.controller.js`: `getUser`, `updateUser`, `deleteUser`. */
module UsersController {
  import opened Wrappers
  import opened Js
  import opened Errors
  import opened Store
  import opened Replies

  const IdRequired: string := "ID de usuario es requerido"
  const BodyRequired: string := "Datos de actualización son requeridos"
  const PasswordBanned: string := "Para cambiar la contraseña use el endpoint específico"
  const EmailInUse: string := "El email ya está en uso"

  /** `getUser`: the stored user, hash included. */
  function GetUser(s: Store, uid: Field, castable: Id -> bool): (r: Result<Reply, Thrown>)
    ensures !Truthy(uid) ==> r == Failure(Error("ValidationError", IdRequired, 400))
    ensures Truthy(uid) && !castable(uid.value) ==> r == Failure(CastError(uid.value))
    ensures Truthy(uid) && castable(uid.value) && uid.value !in s.users
            ==> r == Failure(KindError("NotFoundError", USER_NOT_FOUND))
    ensures r.Success? <==> Truthy(uid) && castable(uid.value) && uid.value in s.users
    ensures r.Success? ==> r.value == Ok(Payload(UserDoc(uid.value, s.users[uid.value])))
  {
    if !Truthy(uid) then Failure(Error("ValidationError", IdRequired, 400))
    else
      match Find(s.users, uid.value, castable)
      case Failure(e) => Failure(e)
      case Success(None) => Failure(KindError("NotFoundError", USER_NOT_FOUND))
      case Success(Some(user)) => Success(Ok(Payload(UserDoc(uid.value, user))))
  }

  /** The checks `updateUser` makes before it writes. `strict` selects the
      reading of the two body guards: JavaScript truthiness as written
      (`false`), or presence of the key (`true`). */
  function CheckUpdate(s: Store, uid: Field, body: UserPatch, castable: Id -> bool, strict: bool)
    : Result<Id, Thrown>
  {
    if !Truthy(uid) then Failure(Error("ValidationError", IdRequired, 400))
    else if body.IsEmpty() then Failure(Error("ValidationError", BodyRequired, 400))
    else
      match Find(s.users, uid.value, castable)
      case Failure(e) => Failure(e)
      case Success(None) => Failure(KindError("NotFoundError", USER_NOT_FOUND))
      case Success(Some(user)) =>
        if (if strict then body.password.Some? else Truthy(body.password)) then
          Failure(Error("ValidationError", PasswordBanned, 400))
        else if (if strict then body.email.Some? else Truthy(body.email))
                && body.email.value != user.email && s.EmailTaken(body.email.value) then
          Failure(Error("ConflictError", EmailInUse, 409))
        else Success(uid.value)
  }

  function ApplyUpdate(s: Store, checked: Result<Id, Thrown>, body: UserPatch): Result<Outcome, Thrown> {
    match checked
    case Failure(e) => Failure(e)
    case Success(u) =>
      Success(Outcome(s.UpdateUser(u, body), Ok(InfoWithId("User updated", "userId", u))))
  }

  /** `updateUser` as written. The checks run in a fixed order and the first
      failure wins: missing id, empty body, unknown user, truthy password,
      truthy new e-mail already in use. On success only user `uid` is patched
      with the body, and the reply echoes `uid`. */
  function UpdateUser(s: Store, uid: Field, body: UserPatch, castable: Id -> bool)
    : (r: Result<Outcome, Thrown>)
    ensures !Truthy(uid) ==> r == Failure(Error("ValidationError", IdRequired, 400))
    ensures Truthy(uid) && body.IsEmpty() ==> r == Failure(Error("ValidationError", BodyRequired, 400))
    ensures Truthy(uid) && !body.IsEmpty() && !castable(uid.value) ==> r == Failure(CastError(uid.value))
    ensures Truthy(uid) && !body.IsEmpty() && castable(uid.value) && uid.value !in s.users
            ==> r == Failure(KindError("NotFoundError", USER_NOT_FOUND))
    ensures Truthy(uid) && !body.IsEmpty() && castable(uid.value) && uid.value in s.users
            && Truthy(body.password)
            ==> r == Failure(Error("ValidationError", PasswordBanned, 400))
    ensures r.Success? <==>
            && Truthy(uid) && !body.IsEmpty() && castable(uid.value) && uid.value in s.users
            && !Truthy(body.password)
            && !(Truthy(body.email) && body.email.value != s.users[uid.value].email
                 && s.EmailTaken(body.email.value))
    ensures Truthy(uid) && !body.IsEmpty() && castable(uid.value) && uid.value in s.users
            && !Truthy(body.password) && Truthy(body.email)
            && body.email.value != s.users[uid.value].email && s.EmailTaken(body.email.value)
            ==> r == Failure(Error("ConflictError", EmailInUse, 409))
    ensures r.Failure? && r.error == Error("ConflictError", EmailInUse, 409) ==>
            Truthy(body.email) && s.EmailTaken(body.email.value)
    ensures r.Success? ==> UserPatched(s, r.value.store, uid.value, body)
    ensures r.Success? ==> r.value.reply == Ok(InfoWithId("User updated", "userId", uid.value))
  {
    ApplyUpdate(s, CheckUpdate(s, uid, body, castable, false), body)
  }

  /** `updateUser` with the two guards reading "the key is present" instead
      of "the value is truthy": a body that carries `password` at all is
      refused, and any e-mail change is checked for a conflict. */
  function UpdateUserGuarded(s: Store, uid: Field, body: UserPatch, castable: Id -> bool)
    : (r: Result<Outcome, Thrown>)
    ensures !Truthy(uid) ==> r == Failure(Error("ValidationError", IdRequired, 400))
    ensures Truthy(uid) && body.IsEmpty() ==> r == Failure(Error("ValidationError", BodyRequired, 400))
    ensures Truthy(uid) && !body.IsEmpty() && !castable(uid.value) ==> r == Failure(CastError(uid.value))
    ensures Truthy(uid) && !body.IsEmpty() && castable(uid.value) && uid.value !in s.users
            ==> r == Failure(KindError("NotFoundError", USER_NOT_FOUND))
    ensures Truthy(uid) && !body.IsEmpty() && castable(uid.value) && uid.value in s.users
            && body.password.Some?
            ==> r == Failure(Error("ValidationError", PasswordBanned, 400))
    ensures Truthy(uid) && !body.IsEmpty() && castable(uid.value) && uid.value in s.users
            && body.password.None? && body.email.Some?
            && body.email.value != s.users[uid.value].email && s.EmailTaken(body.email.value)
            ==> r == Failure(Error("ConflictError", EmailInUse, 409))
    ensures body.password.Some? ==> r.Failure?
    ensures r.Success? <==>
            && Truthy(uid) && !body.IsEmpty() && castable(uid.value) && uid.value in s.users
            && body.password.None?
            && !(body.email.Some? && body.email.value != s.users[uid.value].email
                 && s.EmailTaken(body.email.value))
    ensures r.Success? ==> UserPatched(s, r.value.store, uid.value, body)
    ensures r.Success? ==> r.value.store.users[uid.value].password == s.users[uid.value].password
    ensures r.Success? && body.email.Some? && body.email.value != s.users[uid.value].email
            ==> !s.EmailTaken(body.email.value)
  {
    ApplyUpdate(s, CheckUpdate(s, uid, body, castable, true), body)
  }

  /** Only user `uid` changed, and it changed by exactly `body`. */
  ghost predicate UserPatched(s: Store, s': Store, uid: Id, body: UserPatch) {
    && uid in s.users
    && s'.pets == s.pets && s'.adoptions == s.adoptions
    && s'.users == s.users[uid := PatchUser(s.users[uid], body)]
  }

  /** `deleteUser`: 404 for an unknown user, otherwise only that user is removed. */
  function DeleteUser(s: Store, uid: Field, castable: Id -> bool): (r: Result<Outcome, Thrown>)
    ensures !Truthy(uid) ==> r == Failure(Error("ValidationError", IdRequired, 400))
    ensures Truthy(uid) && !castable(uid.value) ==> r == Failure(CastError(uid.value))
    ensures Truthy(uid) && castable(uid.value) && uid.value !in s.users
            ==> r == Failure(KindError("NotFoundError", USER_NOT_FOUND))
    ensures r.Success? <==> Truthy(uid) && castable(uid.value) && uid.value in s.users
    ensures r.Success? ==>
            && r.value.store == s.(users := s.users - {uid.value})
            && |r.value.store.users| == |s.users| - 1
            && r.value.reply == Ok(InfoWithId("User deleted", "userId", uid.value))
  {
    if !Truthy(uid) then Failure(Error("ValidationError", IdRequired, 400))
    else
      match Find(s.users, uid.value, castable)
      case Failure(e) => Failure(e)
      case Success(None) => Failure(KindError("NotFoundError", USER_NOT_FOUND))
      case Success(Some(_)) =>
        Success(Outcome(s.DeleteUser(uid.value), Ok(InfoWithId("User deleted", "userId", uid.value))))
  }

  function PatchOf(email: Option<string>, password: Option<string>): UserPatch {
    UserPatch(None, None, email, password, None, None)
  }

  /** As written, a body `{password: ""}` passes the password guard (the empty
      string is falsy) and the update overwrites the stored hash. */
  lemma EmptyPasswordOverwritesHash()
    ensures var s := Store(map["u1" := User("Ana", "Paz", "ana@x.io", "$2b$hash", "user", [])], map[], map[]);
            var r := UpdateUser(s, Some("u1"), PatchOf(None, Some("")), _ => true);
            r.Success? && r.value.store.users["u1"].password == ""
  {
  }

  /** As written, a body `{email: ""}` skips the conflict lookup (the empty
      string is falsy) and can give two users the same address. */
  lemma EmptyEmailDuplicates()
    ensures var s := Store(map["u1" := User("Ana", "Paz", "", "h1", "user", []),
                               "u2" := User("Leo", "Paz", "leo@x.io", "h2", "user", [])], map[], map[]);
            var r := UpdateUser(s, Some("u2"), PatchOf(Some(""), None), _ => true);
            s.UniqueEmails() && r.Success? && !r.value.store.UniqueEmails()
  {
    var s := Store(map["u1" := User("Ana", "Paz", "", "h1", "user", []),
                       "u2" := User("Leo", "Paz", "leo@x.io", "h2", "user", [])], map[], map[]);
    var r := UpdateUser(s, Some("u2"), PatchOf(Some(""), None), _ => true);
    assert r.value.store.users["u1"].email == r.value.store.users["u2"].email;
  }

  /** The as-written guards and the key-presence guards differ only on an
      empty `password` or `email`: on every other body the two updates agree. */
  lemma GuardsAgree(s: Store, uid: Field, body: UserPatch, castable: Id -> bool)
    requires body.password != Some("") && body.email != Some("")
    ensures UpdateUser(s, uid, body, castable) == UpdateUserGuarded(s, uid, body, castable)
  {
  }

  /** As written, an update whose body carries no empty `email` keeps
      e-mails unique; EmptyEmailDuplicates shows the empty one does not. */
  lemma UpdateKeepsEmailsUnique(s: Store, uid: Field, body: UserPatch, castable: Id -> bool)
    requires s.UniqueEmails()
    requires body.email != Some("")
    requires UpdateUser(s, uid, body, castable).Success?
    ensures UpdateUser(s, uid, body, castable).value.store.UniqueEmails()
  {
  }

  /** With the guards read as key presence, updates keep e-mails unique. */
  lemma GuardedUpdateKeepsEmailsUnique(s: Store, uid: Field, body: UserPatch, castable: Id -> bool)
    requires s.UniqueEmails()
    requires UpdateUserGuarded(s, uid, body, castable).Success?
    ensures UpdateUserGuarded(s, uid, body, castable).value.store.UniqueEmails()
  {
  }
}

=== FILE: wrappers.dfy ===
/** Option and Result, the failure-carrying datatypes every handler returns. */
module Wrappers {

  datatype Option<+T> = None | Some(value: T) {

    /** The wrapped value, or `default` when absent. */
    function GetOr(default: T): T {
      match this
      case Some(v) => v
      case None => default
    }
  }

  /** `Success` is a normal return, `Failure` a thrown error. */
  datatype Result<+R, +E> = Success(value: R) | Failure(error: E)
}
